=== FILE: README.md ===
# Notion to-do adapter: a Dafny model of its task tools

The server exposes a Notion database as a to-do list through five tools:
`list_tasks`, `add_task`, `complete_task`, `uncomplete_task` and
`set_task_time`. Each tool does three things:

- It builds one request for the Notion API.
- It reads the JSON page records that come back.
- It turns them into task resources. A resource is an id, a
  `notion://task/<id>` URI, a name made of a status glyph, an urgency glyph
  and the title, and a `When: …, Completed: …` description.

If anything raises, the tool answers with one error text that carries the
tool's own prefix.

This project models that data shaping as pure Dafny functions and proves what
it promises. The modules are:

- `Results`: `Option` and `Result`. `Result` carries an error message and
  supports `:-`.
- `Text`: ASCII model of `str.lower()`.
- `Json`: decoded JSON values, and the Python operations the tools apply to
  them. These are truthiness, `x[key]`, `x[0]`, `.get`, iteration and
  `.lower()` on a value that must be a `str`. Each operation fails with
  CPython's exception text, for example `'properties'` for a missing key.
- `When`: validation of the `when` argument. It keeps the caller's text when
  it names `today` or `later` in any case, and substitutes `later` otherwise.
  A separate function gives the lower-case option that is written to the
  store.
- `Render`: the resource record, the four glyphs (U+2705, U+2B1C, U+1F534,
  U+26AA, each followed by a space) and the description. Each renderer comes
  with a reader that takes its output apart again. The read-back lemmas are
  the partners of the renderers.
- `Pages`: reading a page record along the paths the tools use. Two
  fallbacks exist: a falsy title (an empty list, `""`, `null`) reads as
  `Untitled`, and a falsy select (`null`, `{}`) reads as `later`. `ParsePage` reads the fields in `list_tasks`' order.
- `Payloads`: the query, create and update bodies, and the three `properties`
  objects the tools write.
- `Tools`: the five tools. Each takes the store's reply as an input and
  returns the request it sends together with the list it answers with.
- `ToolProperties` and `ToolExamples`: cross-tool properties, and concrete
  scenarios, proved as lemmas.
- `BaseServer`: `reverse_text` of the minimal example server.

The store call itself is not modelled. A tool receives either the decoded body of
the reply (`Replied`) or the text of the exception that the transport, the
status check or the decoding raised (`Failed`). The order in which a tool
reads fields from a reply follows the source. That order decides which
exception text a malformed reply produces.

The model follows the code:

- A falsy title reads as `Untitled`, a falsy select as `later`, and a
  query reply without `results` lists no tasks. No other field has a
  default.
- Any other missing field raises inside the tool's `try`, so the tool answers
  with the error text. For example, `list_tasks` fails on a record without a
  checkbox, and on one without an id.
- `add_task`'s description shows the caller's spelling of `when`
  (`When: TODAY, …`), while the store receives the lower-case option.

## Model

| member | source | states |
|---|---|---|
| Text.Lower | src/notion_mcp/server.py:182 | lower-casing keeps the length, maps each character on its own, and leaves no upper-case letter |
| Json.SubscriptFinds | src/notion_mcp/server.py:156-158 | `x[key]` succeeds exactly on a dict that binds the key, and returns a value bound to it; on a dict without the key it fails with the KeyError text `'key'`, which is Python's text for every key without a quote or backslash, as all the adapter's keys are |
| Json.LookupFinds | src/notion_mcp/server.py:156 | a key is found exactly when the object binds it, and what is found is bound to it |
| Json.First | src/notion_mcp/server.py:156 | `x[0]` succeeds exactly on a non-empty list or string, and on a list returns its first element |
| Json.GetOr | src/notion_mcp/server.py:104 | `.get(key, default)` fails exactly on a non-dict; it gives the default for a missing key and `x[key]` otherwise |
| Json.DistinctKeys | src/notion_mcp/server.py:104 | the keys of the dict `json.loads` builds: exactly the object's keys, each once, none only for an empty object, and ordered by first occurrence (a key listed before another occurs in the document before any occurrence of the other) |
| Json.Iterate | src/notion_mcp/server.py:155 | iteration fails exactly on a non-iterable value; a list yields its items, a string its characters, a dict each of its distinct keys in first-occurrence order; a string or dict yields nothing exactly when it is falsy |
| Json.IterateVisitsEachKeyOnce | src/notion_mcp/server.py:155 | iterating a dict visits every key of the object, and none twice, even when the document repeats a key |
| Json.StrForLower | src/notion_mcp/server.py:161 | `.lower()` succeeds exactly on a string and then lower-cases that string itself |
| When.Normalize | src/notion_mcp/server.py:182-183 | the kept `when` is always recognised; a recognised input is kept verbatim, anything else becomes `later`; it means today exactly when the input does |
| When.SelectName | src/notion_mcp/server.py:198 | the stored option is `today` or `later`, `today` exactly when the input means today, lower case, and the lower-case input whenever the input is recognised |
| When.OptionsNormalizeToThemselves | src/notion_mcp/server.py:283-284 | `today` and `later` are kept and stored unchanged |
| When.NormalizeIdempotent | src/notion_mcp/server.py:283-290 | validating an already validated `when` changes nothing |
| Render.DisplayNameReadsBack | src/notion_mcp/server.py:160-167 | a display name reads back as the completion flag, whether `when` means today, and the raw title |
| Render.DisplayNameInjective | src/notion_mcp/server.py:167 | two display names are equal only when completion, urgency and title agree |
| Render.DescriptionReadsBack | src/notion_mcp/server.py:168 | a description reads back as the `when` text verbatim and the completion flag |
| Render.DescriptionInjective | src/notion_mcp/server.py:168 | two descriptions are equal only when `when` and the flag agree |
| Render.TaskUriReadsBack | src/notion_mcp/server.py:166 | the task URI reads back as the id |
| Render.TaskResourceReadsBack | src/notion_mcp/server.py:163-170 | a task resource keeps the id, and its URI, name and description read back as id, flag, urgency, title and `when` |
| Render.GlyphTable | src/notion_mcp/server.py:160-161 | the glyph pair for each of the four combinations of completion and urgency |
| Render.OptionGlyphs | src/notion_mcp/server.py:161 | `today` gets the red circle and `later` the white circle |
| Render.DescriptionTable | src/notion_mcp/server.py:168 | the description spelled out, with `True` and `False` as Python prints them |
| Render.ResourceDueToday | src/notion_mcp/server.py:239-244 | the full resource of an open or completed task due today |
| Render.ResourceForLater | src/notion_mcp/server.py:268-273 | the full resource of an open or completed task for later |
| Pages.ParsePage | src/notion_mcp/server.py:156-165 | a parsed record holds what the title, `when`, checkbox and id readers return for it; and a page on which all four readers succeed, with a string `when`, is parsed; a record that fails gives the error of the first failing step, in the order title, `when`, checkbox, `.lower()`, id |
| Pages.FalsyTitleIsUntitled | src/notion_mcp/server.py:156 | an empty or otherwise falsy title list reads as `Untitled` |
| Pages.FirstFragmentIsTitle | src/notion_mcp/server.py:156 | a non-empty title list reads as the text content of its first fragment |
| Pages.FalsySelectIsLater | src/notion_mcp/server.py:157 | a null or otherwise falsy select reads as `later` |
| Pages.MissingPropertiesFails | src/notion_mcp/server.py:156 | a record without `properties` fails with the KeyError text `'properties'` |
| Pages.MissingCheckboxFails | src/notion_mcp/server.py:158 | a record whose properties lack `Checkbox` fails with `'Checkbox'`, not a default |
| Pages.MissingIdFails | src/notion_mcp/server.py:165 | a record that reads fully but lacks `id` fails with `'id'` |
| Pages.ParseRecord | src/notion_mcp/server.py:155-158 | a record in the store's shape parses to its first title fragment (or `Untitled`), its option (or `later`), its checkbox and its id |
| Pages.ReadTaskProperties | src/notion_mcp/server.py:186-204 | the readers find in a properties object of the store's shape what was put there |
| Payloads.NewTaskProperties | src/notion_mcp/server.py:186-204 | add_task writes exactly `Task`, `When` and `Checkbox`: the title as a single text fragment holding the task name, the lower-case option and an unticked checkbox; the `Task`, `When`, `select` and `Checkbox` objects each hold only `title`, `select`, `name` and `checkbox` |
| Payloads.CheckboxProperties | src/notion_mcp/server.py:225-229 | complete and uncomplete write only `Checkbox`, an object whose only key `checkbox` holds the given flag |
| Payloads.WhenProperties | src/notion_mcp/server.py:287-293 | set_task_time writes only `When`, holding the lower-case option |
| Payloads.WhenPropertiesKeys | src/notion_mcp/server.py:287-293 | the `When` object holds only `select`, and `select` only `name` |
| Payloads.CreateBody | src/notion_mcp/server.py:110-113 | the create body holds exactly `parent` and `properties`, and the parent names only the database |
| Payloads.UpdateBody | src/notion_mcp/server.py:131-133 | the update body holds only `properties` |
| Tools.Answer | src/notion_mcp/server.py:172-175 | an answer is resources only or a single text with the tool's prefix; an error becomes exactly that text |
| Tools.RenderPages | src/notion_mcp/server.py:154-172 | the list succeeds exactly when every record parses, then holds one resource per record in order; otherwise it carries the error of the first record that fails |
| Tools.ListTasks | src/notion_mcp/server.py:148-175 | list_tasks posts `{}` to the database query URL, and answers with resources or one `Error listing tasks: ` text; a failed call, or a body whose `results` cannot be fetched or iterated, gives exactly that text followed by the error's message |
| Tools.AddTask | src/notion_mcp/server.py:177-218 | add_task posts the new properties to `/pages`; the answer takes only the id from the reply, and the title, validated `when` and an unticked flag from the call; a reply without a readable id gives exactly one error text carrying the reader's message |
| Tools.CompletionOutcome | src/notion_mcp/server.py:234-244 | a rendered completion shows the flag that was written, in both name and description |
| Tools.SetCompletion | src/notion_mcp/server.py:220-247 | complete and uncomplete patch the page with the checkbox, and render the reply's title and `when` with the written flag; a malformed reply gives exactly one error text, carrying the message of the first of the title, `when`, id and `.lower()` steps that fails |
| Tools.CompleteTask | src/notion_mcp/server.py:220-247 | complete_task sends exactly the checkbox properties with the flag set, and every resource it returns shows the task completed; a failed call or malformed reply gives exactly one error text with the message of the first failing step |
| Tools.UncompleteTask | src/notion_mcp/server.py:249-276 | uncomplete_task sends exactly the checkbox properties with the flag cleared, and every resource it returns shows the task open; a failed call or malformed reply gives exactly one error text with the message of the first failing step |
| Tools.TimeOutcome | src/notion_mcp/server.py:298-308 | a rendered set_task_time result shows the validated `when` and its urgency glyph; a readable reply gives the one resource built from its title, checkbox and id, and an unreadable one the error of the first failing read |
| Tools.SetTaskTime | src/notion_mcp/server.py:278-311 | set_task_time patches only the option, and renders the reply's title and checkbox with the validated `when`; a malformed reply gives exactly one error text, carrying the message of the first of the title, checkbox and id reads that fails |
| ToolProperties.ListTasksOneToOne | src/notion_mcp/server.py:155-170 | whatever `results` iterates to, list_tasks maps readable records one to one and in order; each resource keeps its record's id and points at `notion://task/<id>` |
| ToolProperties.ListTasksNoResults | src/notion_mcp/server.py:104 | a reply without `results`, or with an empty list, is an empty task list |
| ToolProperties.ResultsListed | src/notion_mcp/server.py:104 | a `results` list in the reply is exactly the sequence of records the loop walks |
| ToolProperties.ListTasksNullResults | src/notion_mcp/server.py:104-175 | a null `results` is not an empty list: the loop raises and list_tasks answers `Error listing tasks: 'NoneType' object is not iterable` |
| ToolProperties.ListTasksBadRecord | src/notion_mcp/server.py:173-175 | one unreadable record makes list_tasks answer with the first such record's error and nothing else |
| ToolProperties.CallFailureIsOneErrorText | src/notion_mcp/server.py:216-218 | a failed store call makes each tool answer with one text: its own prefix followed by the exception text |
| ToolProperties.AddTaskPayload | src/notion_mcp/server.py:106-113 | add_task's body names the configured database and the new properties |
| ToolProperties.SetTaskTimePayload | src/notion_mcp/server.py:282-293 | set_task_time writes only the option; an unrecognised `when` is written and shown as `later` |
| ToolProperties.CompletionIgnoresReplyCheckbox | src/notion_mcp/server.py:239-244 | complete_task shows the task completed and uncomplete_task shows it open, whatever checkbox the reply holds |
| ToolProperties.SetTaskTimeShowsReplyCheckbox | src/notion_mcp/server.py:299-307 | set_task_time shows the reply's checkbox, with the validated `when` |
| ToolProperties.AddedTaskListsAlike | src/notion_mcp/server.py:198-214 | a task added and then listed has the same name; the descriptions differ only in the case of `when` |
| ToolProperties.AddTaskAnswer | src/notion_mcp/server.py:210-215 | add_task answers with the reply's id and the caller's title and validated `when` |
| ToolProperties.ListStoredTask | src/notion_mcp/server.py:155-170 | listing the record that add_task stored shows the title, the lower-case option and an open task |
| ToolProperties.ListOneRecord | src/notion_mcp/server.py:155-170 | a reply with one record in the store's shape lists that one task |
| ToolExamples.ListTwoTasks | tests/test_server.py:111-142 | the two sample records list as an open task due today and a completed task for later, spelled out in full |
| ToolExamples.ListFirstOfTwo | tests/test_server.py:136-139 | the first sample record is listed first |
| ToolExamples.ListSecondOfTwo | tests/test_server.py:140-142 | the second sample record is listed second |
| ToolExamples.AddForToday | tests/test_server.py:145-164 | adding a task for today answers with an open task due today |
| ToolExamples.AddWithDefaultOption | src/notion_mcp/server.py:178 | adding with the default `later` answers with an open task for later |
| ToolExamples.AddWithUnknownOption | src/notion_mcp/server.py:182-183 | adding with `tomorrow` answers with a task for later |
| ToolExamples.CompleteThenUncompleteToday | tests/test_server.py:167-208 | a task due today shows as completed and then as open, keeping its glyph for today |
| ToolExamples.SetLaterTime | tests/test_server.py:211-230 | moving a task to later shows the white circle and `later` |
| ToolExamples.ListUntitledTask | src/notion_mcp/server.py:156-157 | a record with no title and a null select lists as an open `Untitled` task for later |
| BaseServer.ReverseText | base_server_test.py:7-9 | the reversed text has the same length, and character i is the input's character n-1-i |
| BaseServer.ReverseTwice | base_server_test.py:7-9 | reversing twice gives the text back |

## Left out

- The HTTP transport is not modelled: the `httpx` client, its headers, the
  lifespan that opens and closes it, `raise_for_status` and JSON decoding.
  A failed call is the abstract `Failed` reply, with its message as an
  input.
- Environment configuration is not modelled. The API key and database id
  are parameters; failing at start when they are missing is out of scope.
- The server's lifecycle is not modelled: `main`, argument parsing,
  transport selection, the protocol framework and logging.
- `get_database_schema` is not modelled: no tool calls it.
- The `time://now` resource is not modelled because it reads the clock.
- JSON numbers are integers. Floats never reach the fields the tools read.
- `Text.Lower` lower-cases ASCII only. Python's `str.lower()` also maps
  other letters. Compared with `today` or `later`, the two agree. Only
  U+212A and U+0130 lower-case from outside ASCII into ASCII, to `k` and to
  `i` followed by a combining dot, and neither letter occurs in those words.
  The stored option is always `today` or `later`, so no other letters
  reach it.
- Pages.ParsePage: a title fragment whose `content` is not a string, or an
  `id` that is not a string, fails here with a text of the model's own. The
  source would format it with `str()` and carry on.
- Pages.ParsePage: a non-boolean `checkbox` likewise fails here. The source
  would print it and use its truthiness.
- Tools.AddTask: reads the reply's id with `Pages.ReadId`, so a non-string
  id fails with a text of the model's own where the source formats it.
- Tools.SetCompletion: reads the title and id with the same readers, so a
  non-string title `content` or id fails where the source formats it. The
  same holds for Tools.CompleteTask and Tools.UncompleteTask, which use it.
- Tools.SetTaskTime: a non-string title `content` or id, or a non-boolean
  checkbox, fails where the source formats or prints it.
- Tools.ListTasks: the message of a failed call is that of the transport
  exception, which is not part of this model.
- Json.KeyErrorText: the text is the key between single quotes. Python
  prints the key's `repr`, which switches to double quotes for a key holding
  `'` and escapes backslashes and unprintable characters. Every key the tools
  subscript is a plain identifier, so their outputs are unaffected.
- The `Resource` type's URI validation is not modelled. Every
  `notion://task/<id>` is taken as valid.
- Payloads.QueryBody: the filter branch of `query_database` is modelled, but
  no tool passes a filter. The only property stated is `Tools.ListTasks`'
  empty body `{}`.
- The default `when="later"` of `add_task` is modelled by passing `later`
  explicitly.

=== FILE: base_server.dfy ===
/** The one pure tool of the minimal example server: `reverse_text`, Python's
    `text[::-1]` on a string of code points. */
module BaseServer {

  /** The text read backwards: the same length, and character i is the
      input's character n-1-i. */
  function ReverseText(text: string): (r: string)
    ensures |r| == |text|
    ensures forall i :: 0 <= i < |text| ==> r[i] == text[|text| - 1 - i]
  {
    if text == [] then [] else ReverseText(text[1..]) + [text[0]]
  }

  /** Reversing twice gives the original text back. */
  lemma ReverseTwice(text: string)
    ensures ReverseText(ReverseText(text)) == text
  {
    var r := ReverseText(text);
    assert forall i :: 0 <= i < |text| ==> ReverseText(r)[i] == r[|r| - 1 - i] == text[i];
  }
}

=== FILE: json.dfy ===
/** The decoded JSON documents exchanged with the task store, and the few
    Python operations the adapter applies to them: truthiness, `x[key]`,
    `x[0]`, `x.get(key, default)`, iteration and `.lower()` on a value that
    must be a `str`. Each operation fails with the text of the exception
    CPython would raise. */
module Json {
  import opened Results

  /** A JSON value as `json.loads` returns it. An object keeps its members in
      document order; numbers are integers. */
  datatype Json =
    | Null
    | Bool(b: bool)
    | Num(n: int)
    | Str(s: string)
    | Arr(items: seq<Json>)
    | Obj(members: seq<(string, Json)>)

  /** The keys an object binds. */
  function Keys(members: seq<(string, Json)>): set<string> {
    set i | 0 <= i < |members| :: members[i].0
  }

  /** The value bound to `key`; the last binding wins, as it does when
      `json.loads` meets a repeated key. */
  function Lookup(members: seq<(string, Json)>, key: string): Option<Json>
    decreases |members|
  {
    if members == [] then None
    else
      var n := |members| - 1;
      if members[n].0 == key then Some(members[n].1)
      else Lookup(members[..n], key)
  }

  /** A key is found exactly when the object binds it, and what is found is
      bound to it. */
  lemma {:induction false} LookupFinds(members: seq<(string, Json)>, key: string)
    ensures Lookup(members, key).Some? <==> key in Keys(members)
    ensures Lookup(members, key).Some? ==> (key, Lookup(members, key).value) in members
    decreases |members|
  {
    if members != [] {
      var n := |members| - 1;
      assert Keys(members) == Keys(members[..n]) + {members[n].0} by {
        assert forall i :: 0 <= i < n ==> members[..n][i] == members[i];
      }
      LookupFinds(members[..n], key);
    }
  }

  /** A key bound at index i and never again later is looked up to the value
      at index i. */
  lemma {:induction false} LookupAt(members: seq<(string, Json)>, i: nat, key: string)
    requires i < |members| && members[i].0 == key
    requires forall j :: i < j < |members| ==> members[j].0 != key
    ensures Lookup(members, key) == Some(members[i].1)
    decreases |members|
  {
    var n := |members| - 1;
    if i < n {
      assert members[..n][i] == members[i];
      LookupAt(members[..n], i, key);
    }
  }

  /** `Obj(members)[key]` for a key bound at index i and never again later. */
  lemma SubscriptAt(members: seq<(string, Json)>, i: nat, key: string)
    requires i < |members| && members[i].0 == key
    requires forall j :: i < j < |members| ==> members[j].0 != key
    ensures Subscript(Obj(members), key) == Ok(members[i].1)
  {
    LookupAt(members, i, key);
  }

  /** Python's truth value of the decoded value. */
  predicate Truthy(j: Json) {
    match j
    case Null => false
    case Bool(b) => b
    case Num(n) => n != 0
    case Str(s) => s != []
    case Arr(xs) => xs != []
    case Obj(ms) => ms != []
  }

  /** The Python type name of the decoded value, as error messages print it. */
  function TypeName(j: Json): string {
    match j
    case Null => "NoneType"
    case Bool(_) => "bool"
    case Num(_) => "int"
    case Str(_) => "str"
    case Arr(_) => "list"
    case Obj(_) => "dict"
  }

  /** The text of a `KeyError` raised for a string key without a quote,
      backslash or unprintable character; Python prints other keys with
      escapes or double quotes. */
  function KeyErrorText(key: string): string {
    "'" + key + "'"
  }

  /** `j[key]` with a string key. */
  function Subscript(j: Json, key: string): Result<Json> {
    match j
    case Obj(ms) =>
      (match Lookup(ms, key)
       case Some(v) => Ok(v)
       case None => Err(KeyErrorText(key)))
    case Arr(_) => Err("list indices must be integers or slices, not str")
    case Str(_) => Err("string indices must be integers, not 'str'")
    case _ => Err("'" + TypeName(j) + "' object is not subscriptable")
  }

  /** `j[key]` succeeds exactly on an object that binds the key, and fails
      on an object that does not with the `KeyError` text. */
  lemma SubscriptFinds(j: Json, key: string)
    ensures Subscript(j, key).Ok? <==> j.Obj? && key in Keys(j.members)
    ensures Subscript(j, key).Ok? ==> (key, Subscript(j, key).value) in j.members
    ensures j.Obj? && key !in Keys(j.members) ==> Subscript(j, key) == Err(KeyErrorText(key))
  {
    if j.Obj? {
      LookupFinds(j.members, key);
    }
  }

  /** `j[0]`. A JSON object never binds the integer key 0. */
  function First(j: Json): (r: Result<Json>)
    ensures r.Ok? <==> (j.Arr? && |j.items| > 0) || (j.Str? && |j.s| > 0)
    ensures j.Arr? && |j.items| > 0 ==> r == Ok(j.items[0])
  {
    match j
    case Arr(xs) => if xs != [] then Ok(xs[0]) else Err("list index out of range")
    case Str(s) => if s != [] then Ok(Str([s[0]])) else Err("string index out of range")
    case Obj(_) => Err("0")
    case _ => Err("'" + TypeName(j) + "' object is not subscriptable")
  }

  /** `j.get(key, default)`, which only a `dict` supports. */
  function GetOr(j: Json, key: string, default: Json): (r: Result<Json>)
    ensures r.Ok? <==> j.Obj?
    ensures j.Obj? && key !in Keys(j.members) ==> r == Ok(default)
    ensures j.Obj? && key in Keys(j.members) ==> r == Subscript(j, key)
  {
    match j
    case Obj(ms) =>
      LookupFinds(ms, key);
      Ok(Lookup(ms, key).GetOr(default))
    case _ => Err("'" + TypeName(j) + "' object has no attribute 'get'")
  }

  /** The text of the `TypeError` raised by a loop over a value of the named
      type. */
  function NotIterable(typeName: string): string {
    "'" + typeName + "' object is not iterable"
  }

  /** The keys of the dict `json.loads` builds from an object, in the order
      the dict iterates them: each key once, where it first occurs. */
  function DistinctKeys(members: seq<(string, Json)>): (keys: seq<string>)
    ensures forall k :: k in keys <==> k in Keys(members)
    ensures forall a, b :: 0 <= a < b < |keys| ==> keys[a] != keys[b]
    ensures |keys| == 0 <==> members == []
    ensures forall a, b :: 0 <= a < b < |keys| ==>
              exists i :: 0 <= i < |members| && members[i].0 == keys[a]
                          && forall j :: 0 <= j <= i ==> members[j].0 != keys[b]
    decreases |members|
  {
    if members == [] then []
    else
      var n := |members| - 1;
      assert forall i :: 0 <= i < n ==> members[..n][i] == members[i];
      assert Keys(members) == Keys(members[..n]) + {members[n].0};
      var earlier := DistinctKeys(members[..n]);
      if members[n].0 in earlier then earlier
      else
        var keys := earlier + [members[n].0];
        assert forall a :: 0 <= a < |earlier| ==>
                 exists i :: 0 <= i < n && members[i].0 == keys[a] by {
          forall a | 0 <= a < |earlier|
            ensures exists i :: 0 <= i < n && members[i].0 == keys[a]
          {
            assert earlier[a] in Keys(members[..n]);
            var i :| 0 <= i < n && members[..n][i].0 == earlier[a];
            assert members[i].0 == keys[a];
          }
        }
        keys
  }

  /** The elements `for x in j` visits: a list's items, a string's characters,
      a dict's keys. */
  function Iterate(j: Json): (r: Result<seq<Json>>)
    ensures r.Ok? <==> j.Arr? || j.Str? || j.Obj?
    ensures j.Arr? ==> r == Ok(j.items)
    ensures j.Str? ==> |r.value| == |j.s| && forall i :: 0 <= i < |j.s| ==> r.value[i] == Str([j.s[i]])
    ensures j.Obj? ==> |r.value| == |DistinctKeys(j.members)|
                       && forall i :: 0 <= i < |r.value| ==> r.value[i] == Str(DistinctKeys(j.members)[i])
    ensures r.Ok? && !j.Arr? ==> forall i :: 0 <= i < |r.value| ==> r.value[i].Str?
    ensures r.Ok? && !j.Arr? ==> (|r.value| == 0 <==> !Truthy(j))
  {
    match j
    case Arr(xs) => Ok(xs)
    case Str(s) => Ok(seq(|s|, i requires 0 <= i < |s| => Str([s[i]])))
    case Obj(ms) =>
      var keys := DistinctKeys(ms);
      Ok(seq(|keys|, i requires 0 <= i < |keys| => Str(keys[i])))
    case _ => Err(NotIterable(TypeName(j)))
  }

  /** A dict iterates each of its keys exactly once, even when the document
      repeats a key. */
  lemma IterateVisitsEachKeyOnce(members: seq<(string, Json)>, key: string)
    requires key in Keys(members)
    ensures var r := Iterate(Obj(members)).value;
            exists i :: 0 <= i < |r| && r[i] == Str(key)
    ensures var r := Iterate(Obj(members)).value;
            forall a, b :: 0 <= a < b < |r| ==> r[a] != r[b]
  {
    var keys := DistinctKeys(members);
    var i :| 0 <= i < |keys| && keys[i] == key;
    assert Iterate(Obj(members)).value[i] == Str(key);
  }

  /** The receiver of a `.lower()` call, which must be a `str`. */
  function StrForLower(j: Json): (r: Result<string>)
    ensures r.Ok? <==> j.Str?
    ensures j.Str? ==> r.value == j.s
  {
    match j
    case Str(s) => Ok(s)
    case _ => Err("'" + TypeName(j) + "' object has no attribute 'lower'")
  }
}

=== FILE: pages.dfy ===
/** Reading a page record returned by the task store. Every tool reads the
    same paths — `properties.Task.title[0].text.content`,
    `properties.When.select.name`, `properties.Checkbox.checkbox` and `id` —
    with two fallbacks: a falsy title list reads as "Untitled" and a falsy
    select reads as "later". Any other missing key or mistyped value is a
    failure carrying the exception text. */
module Pages {
  import opened Results
  import opened Json
  import opened When

  /** The fields list_tasks takes from one page record. */
  datatype Page = Page(id: string, title: string, when: string, completed: bool)

  const Untitled: string := "Untitled"

  /** The text of a title fragment. */
  function ContentText(content: Json): Result<string> {
    if content.Str? then Ok(content.s) else Err("title content is not a string")
  }

  /** The task title held in a `properties` object. */
  function TitleOf(props: Json): Result<string> {
    var task :- Subscript(props, "Task");
    var title :- Subscript(task, "title");
    if !Truthy(title) then Ok(Untitled)
    else
      var first :- First(title);
      var text :- Subscript(first, "text");
      var content :- Subscript(text, "content");
      ContentText(content)
  }

  /** The raw `when` value held in a `properties` object; it is not yet known
      to be a string. */
  function WhenOf(props: Json): Result<Json> {
    var when :- Subscript(props, "When");
    var select :- Subscript(when, "select");
    if Truthy(select) then Subscript(select, "name") else Ok(Str(Later))
  }

  /** The checkbox held in a `properties` object. */
  function CompletedOf(props: Json): Result<bool> {
    var checkbox :- Subscript(props, "Checkbox");
    var value :- Subscript(checkbox, "checkbox");
    if value.Bool? then Ok(value.b) else Err("checkbox is not a boolean")
  }

  function ReadTitle(page: Json): Result<string> {
    var props :- Subscript(page, "properties");
    TitleOf(props)
  }

  function ReadWhen(page: Json): Result<Json> {
    var props :- Subscript(page, "properties");
    WhenOf(props)
  }

  function ReadCompleted(page: Json): Result<bool> {
    var props :- Subscript(page, "properties");
    CompletedOf(props)
  }

  function ReadId(page: Json): Result<string> {
    var id :- Subscript(page, "id");
    if id.Str? then Ok(id.s) else Err("id is not a string")
  }

  /** One page record as list_tasks reads it: title, when, checkbox, then the
      `.lower()` call on `when`, then the id. */
  function ParsePage(page: Json): (r: Result<Page>)
    ensures r.Ok? ==> ReadTitle(page) == Ok(r.value.title)
    ensures r.Ok? ==> ReadWhen(page) == Ok(Str(r.value.when))
    ensures r.Ok? ==> ReadCompleted(page) == Ok(r.value.completed)
    ensures r.Ok? ==> ReadId(page) == Ok(r.value.id)
    ensures (&& ReadTitle(page).Ok? && ReadWhen(page).Ok? && ReadWhen(page).value.Str?
             && ReadCompleted(page).Ok? && ReadId(page).Ok?) ==> r.Ok?
    ensures ReadTitle(page).Err? ==> r == Err(ReadTitle(page).message)
    ensures ReadTitle(page).Ok? && ReadWhen(page).Err? ==> r == Err(ReadWhen(page).message)
    ensures ReadTitle(page).Ok? && ReadWhen(page).Ok? && ReadCompleted(page).Err? ==>
              r == Err(ReadCompleted(page).message)
    ensures ReadTitle(page).Ok? && ReadWhen(page).Ok? && ReadCompleted(page).Ok? && !ReadWhen(page).value.Str? ==>
              r == Err(StrForLower(ReadWhen(page).value).message)
    ensures (&& ReadTitle(page).Ok? && ReadWhen(page).Ok? && ReadCompleted(page).Ok? && ReadWhen(page).value.Str?
             && ReadId(page).Err?) ==> r == Err(ReadId(page).message)
  {
    var title :- ReadTitle(page);
    var whenValue :- ReadWhen(page);
    var completed :- ReadCompleted(page);
    var when :- StrForLower(whenValue);
    var id :- ReadId(page);
    Ok(Page(id, title, when, completed))
  }

  /** An empty (or otherwise falsy) title list reads as "Untitled", whatever
      else the properties hold. */
  lemma FalsyTitleIsUntitled(props: Json, task: Json)
    requires Subscript(props, "Task") == Ok(task)
    requires Subscript(task, "title").Ok? && !Truthy(Subscript(task, "title").value)
    ensures TitleOf(props) == Ok(Untitled)
  {
  }

  /** A non-empty title list reads as its first fragment's text. */
  lemma FirstFragmentIsTitle(props: Json, task: Json, fragments: seq<Json>, text: Json, content: string)
    requires Subscript(props, "Task") == Ok(task)
    requires Subscript(task, "title") == Ok(Arr(fragments)) && fragments != []
    requires Subscript(fragments[0], "text") == Ok(text)
    requires Subscript(text, "content") == Ok(Str(content))
    ensures TitleOf(props) == Ok(content)
  {
  }

  /** A null (or otherwise falsy) select reads as "later". */
  lemma FalsySelectIsLater(props: Json, when: Json)
    requires Subscript(props, "When") == Ok(when)
    requires Subscript(when, "select").Ok? && !Truthy(Subscript(when, "select").value)
    ensures WhenOf(props) == Ok(Str(Later))
  {
  }

  /** A record without `properties` fails with the KeyError text. */
  lemma MissingPropertiesFails(page: Json)
    requires page.Obj? && "properties" !in Keys(page.members)
    ensures ParsePage(page) == Err(KeyErrorText("properties"))
  {
    SubscriptFinds(page, "properties");
  }

  /** A record whose title and `when` read, but whose properties lack
      `Checkbox`, fails with the KeyError text rather than a default. */
  lemma MissingCheckboxFails(page: Json, props: Json)
    requires Subscript(page, "properties") == Ok(props)
    requires TitleOf(props).Ok? && WhenOf(props).Ok?
    requires props.Obj? && "Checkbox" !in Keys(props.members)
    ensures ParsePage(page) == Err(KeyErrorText("Checkbox"))
  {
    SubscriptFinds(props, "Checkbox");
  }

  /** A record whose properties all read, but which lacks `id`, fails with
      the KeyError text. */
  lemma MissingIdFails(page: Json)
    requires ReadTitle(page).Ok? && ReadCompleted(page).Ok?
    requires ReadWhen(page).Ok? && ReadWhen(page).value.Str?
    requires page.Obj? && "id" !in Keys(page.members)
    ensures ParsePage(page) == Err(KeyErrorText("id"))
  {
    SubscriptFinds(page, "id");
  }

  /** The `properties` of a task in the store's canonical shape: a title made
      of the given text fragments, an optional select option and a checkbox. */
  function TaskProperties(fragments: seq<string>, select: Option<string>, completed: bool): Json {
    var title := seq(|fragments|, i requires 0 <= i < |fragments| =>
                       Obj([("text", Obj([("content", Str(fragments[i]))]))]));
    var option := match select
                  case Some(name) => Obj([("name", Str(name))])
                  case None => Null;
    Obj([("Task", Obj([("title", Arr(title))])),
         ("When", Obj([("select", option)])),
         ("Checkbox", Obj([("checkbox", Bool(completed))]))])
  }

  /** A page record in the store's canonical shape. */
  function Record(id: string, fragments: seq<string>, select: Option<string>, completed: bool): Json {
    Obj([("id", Str(id)), ("properties", TaskProperties(fragments, select, completed))])
  }

  /** A canonical record reads back as its first title fragment (or
      "Untitled" when there is none), its select option (or "later" when it
      is null), its checkbox and its id. */
  lemma ParseRecord(id: string, fragments: seq<string>, select: Option<string>, completed: bool)
    ensures ParsePage(Record(id, fragments, select, completed))
         == Ok(Page(id, if fragments == [] then Untitled else fragments[0], select.GetOr(Later), completed))
  {
    var page := Record(id, fragments, select, completed);
    SubscriptAt(page.members, 1, "properties");
    SubscriptAt(page.members, 0, "id");
    ReadTaskProperties(fragments, select, completed);
  }

  /** Each reader finds in canonical properties what was put there. */
  lemma ReadTaskProperties(fragments: seq<string>, select: Option<string>, completed: bool)
    ensures TitleOf(TaskProperties(fragments, select, completed)) == Ok(if fragments == [] then Untitled else fragments[0])
    ensures WhenOf(TaskProperties(fragments, select, completed)) == Ok(Str(select.GetOr(Later)))
    ensures CompletedOf(TaskProperties(fragments, select, completed)) == Ok(completed)
  {
    var props := TaskProperties(fragments, select, completed);
    TitleOfTaskProperties(props, fragments, select, completed);
    WhenOfTaskProperties(props, fragments, select, completed);
    CompletedOfTaskProperties(props, fragments, select, completed);
  }

  lemma TitleOfTaskProperties(props: Json, fragments: seq<string>, select: Option<string>, completed: bool)
    requires props == TaskProperties(fragments, select, completed)
    ensures TitleOf(props) == Ok(if fragments == [] then Untitled else fragments[0])
  {
    var task := props.members[0].1;
    SubscriptAt(props.members, 0, "Task");
    SubscriptAt(task.members, 0, "title");
    if fragments != [] {
      var first := task.members[0].1.items[0];
      SubscriptAt(first.members, 0, "text");
      SubscriptAt(first.members[0].1.members, 0, "content");
    }
  }

  lemma WhenOfTaskProperties(props: Json, fragments: seq<string>, select: Option<string>, completed: bool)
    requires props == TaskProperties(fragments, select, completed)
    ensures WhenOf(props) == Ok(Str(select.GetOr(Later)))
  {
    var when := props.members[1].1;
    SubscriptAt(props.members, 1, "When");
    SubscriptAt(when.members, 0, "select");
    if select.Some? {
      SubscriptAt(when.members[0].1.members, 0, "name");
    }
  }

  lemma CompletedOfTaskProperties(props: Json, fragments: seq<string>, select: Option<string>, completed: bool)
    requires props == TaskProperties(fragments, select, completed)
    ensures CompletedOf(props) == Ok(completed)
  {
    var checkbox := props.members[2].1;
    SubscriptAt(props.members, 2, "Checkbox");
    SubscriptAt(checkbox.members, 0, "checkbox");
  }
}

=== FILE: payloads.dfy ===
/** The JSON bodies the adapter sends to the task store, and the three
    requests that carry them: query the task database, create a page in it,
    update one page. */
module Payloads {
  import opened Results
  import opened Json
  import opened When
  import opened Pages

  const ApiUrl: string := "https://api.notion.com/v1"

  datatype Verb = Post | Patch

  /** One outbound call: method, URL and JSON body. The fixed headers are not
      modelled. */
  datatype Request = Request(verb: Verb, url: string, body: Json)

  /** `j[key]` is an object whose keys are exactly `keys`. */
  predicate OnlyKeysAt(j: Json, key: string, keys: set<string>) {
    Subscript(j, key).Ok? && Subscript(j, key).value.Obj? && Keys(Subscript(j, key).value.members) == keys
  }

  /** The `properties` of a new task: the title, the normalised select option
      and an unticked checkbox — nothing else. */
  function NewTaskProperties(taskName: string, when: string): (props: Json)
    ensures props.Obj? && Keys(props.members) == {"Task", "When", "Checkbox"}
    ensures TitleOf(props) == Ok(taskName)
    ensures Subscript(props, "Task").Ok?
            && Subscript(Subscript(props, "Task").value, "title")
               == Ok(Arr([Obj([("text", Obj([("content", Str(taskName))]))])]))
    ensures WhenOf(props) == Ok(Str(SelectName(when)))
    ensures CompletedOf(props) == Ok(false)
    ensures OnlyKeysAt(props, "Task", {"title"})
    ensures OnlyKeysAt(props, "When", {"select"}) && OnlyKeysAt(Subscript(props, "When").value, "select", {"name"})
    ensures OnlyKeysAt(props, "Checkbox", {"checkbox"})
  {
    TopKeysAndTitle(taskName, SelectName(when));
    NestedKeys(taskName, SelectName(when));
    ReadTaskProperties([taskName], Some(SelectName(when)), false);
    TaskProperties([taskName], Some(SelectName(when)), false)
  }

  /** A new task's `properties` hold the three fields, and the title is the
      single text fragment holding the task name. */
  lemma TopKeysAndTitle(taskName: string, option: string)
    ensures var props := TaskProperties([taskName], Some(option), false);
            && props.Obj? && Keys(props.members) == {"Task", "When", "Checkbox"}
            && Subscript(props, "Task").Ok?
            && Subscript(Subscript(props, "Task").value, "title")
               == Ok(Arr([Obj([("text", Obj([("content", Str(taskName))]))])]))
  {
    var props := TaskProperties([taskName], Some(option), false);
    SubscriptAt(props.members, 0, "Task");
    SubscriptAt(props.members[0].1.members, 0, "title");
    assert props.members[0].1.members[0].1.items == [Obj([("text", Obj([("content", Str(taskName))]))])];
    assert Keys(props.members) == {"Task", "When", "Checkbox"} by {
      assert props.members[0].0 == "Task" && props.members[1].0 == "When" && props.members[2].0 == "Checkbox";
    }
  }

  /** The objects inside a new task's `properties` hold one key each. */
  lemma NestedKeys(taskName: string, option: string)
    ensures var props := TaskProperties([taskName], Some(option), false);
            && OnlyKeysAt(props, "Task", {"title"})
            && OnlyKeysAt(props, "When", {"select"}) && OnlyKeysAt(Subscript(props, "When").value, "select", {"name"})
            && OnlyKeysAt(props, "Checkbox", {"checkbox"})
  {
    var props := TaskProperties([taskName], Some(option), false);
    SubscriptAt(props.members, 0, "Task");
    SubscriptAt(props.members, 1, "When");
    SubscriptAt(props.members, 2, "Checkbox");
    SubscriptAt(props.members[1].1.members, 0, "select");
    assert Keys(props.members[0].1.members) == {"title"} by { assert props.members[0].1.members[0].0 == "title"; }
    assert Keys(props.members[1].1.members) == {"select"} by { assert props.members[1].1.members[0].0 == "select"; }
    assert Keys(props.members[1].1.members[0].1.members) == {"name"} by {
      assert props.members[1].1.members[0].1.members[0].0 == "name";
    }
    assert Keys(props.members[2].1.members) == {"checkbox"} by { assert props.members[2].1.members[0].0 == "checkbox"; }
  }

  /** The `properties` of complete_task / uncomplete_task: the checkbox and
      nothing else. */
  function CheckboxProperties(completed: bool): (props: Json)
    ensures props.Obj? && Keys(props.members) == {"Checkbox"}
    ensures CompletedOf(props) == Ok(completed)
    ensures OnlyKeysAt(props, "Checkbox", {"checkbox"})
  {
    var props := Obj([("Checkbox", Obj([("checkbox", Bool(completed))]))]);
    SubscriptAt(props.members, 0, "Checkbox");
    SubscriptAt(props.members[0].1.members, 0, "checkbox");
    assert Keys(props.members[0].1.members) == {"checkbox"} by { assert props.members[0].1.members[0].0 == "checkbox"; }
    props
  }

  /** The `properties` of set_task_time: the normalised select option and
      nothing else. */
  function WhenProperties(when: string): (props: Json)
    ensures props.Obj? && Keys(props.members) == {"When"}
    ensures WhenOf(props) == Ok(Str(SelectName(when)))
  {
    var props := Obj([("When", Obj([("select", Obj([("name", Str(SelectName(when)))]))]))]);
    SubscriptAt(props.members, 0, "When");
    SubscriptAt(props.members[0].1.members, 0, "select");
    SubscriptAt(props.members[0].1.members[0].1.members, 0, "name");
    props
  }

  /** The objects inside set_task_time's `properties` hold one key each:
      `When` only `select`, and `select` only `name`. */
  lemma WhenPropertiesKeys(when: string)
    ensures var props := WhenProperties(when);
            OnlyKeysAt(props, "When", {"select"}) && OnlyKeysAt(Subscript(props, "When").value, "select", {"name"})
  {
    var props := WhenProperties(when);
    SubscriptAt(props.members, 0, "When");
    SubscriptAt(props.members[0].1.members, 0, "select");
    assert Keys(props.members[0].1.members) == {"select"} by { assert props.members[0].1.members[0].0 == "select"; }
    assert Keys(props.members[0].1.members[0].1.members) == {"name"} by {
      assert props.members[0].1.members[0].1.members[0].0 == "name";
    }
  }

  /** The query body: the filter when it is truthy, the empty object when it
      is absent or empty. */
  function QueryBody(filter: Json): Json {
    if Truthy(filter) then filter else Obj([])
  }

  /** The create body: a parent naming the database, and the properties. */
  function CreateBody(databaseId: string, props: Json): (body: Json)
    ensures body.Obj? && Keys(body.members) == {"parent", "properties"}
    ensures Subscript(body, "properties") == Ok(props)
    ensures Subscript(body, "parent").Ok?
    ensures var parent := Subscript(body, "parent").value;
            parent.Obj? && Keys(parent.members) == {"database_id"}
            && Subscript(parent, "database_id") == Ok(Str(databaseId))
  {
    var body := Obj([("parent", Obj([("database_id", Str(databaseId))])), ("properties", props)]);
    assert Keys(body.members) == {"parent", "properties"} by {
      assert body.members[0].0 == "parent" && body.members[1].0 == "properties";
    }
    SubscriptAt(body.members, 0, "parent");
    SubscriptAt(body.members, 1, "properties");
    SubscriptAt(body.members[0].1.members, 0, "database_id");
    body
  }

  /** The update body: the properties wrapped under `properties`, alone. */
  function UpdateBody(props: Json): (body: Json)
    ensures body.Obj? && Keys(body.members) == {"properties"}
    ensures Subscript(body, "properties") == Ok(props)
  {
    var body := Obj([("properties", props)]);
    SubscriptAt(body.members, 0, "properties");
    body
  }

  function QueryRequest(databaseId: string, filter: Json): Request {
    Request(Post, ApiUrl + "/databases/" + databaseId + "/query", QueryBody(filter))
  }

  function CreateRequest(databaseId: string, props: Json): Request {
    Request(Post, ApiUrl + "/pages", CreateBody(databaseId, props))
  }

  function UpdateRequest(pageId: string, props: Json): Request {
    Request(Patch, ApiUrl + "/pages/" + pageId, UpdateBody(props))
  }
}

=== FILE: render.dfy ===
/** How the adapter presents one task to the protocol client: a resource
    record with a `notion://task/` URI, a name made of a status glyph, an
    urgency glyph and the title, and a "When: …, Completed: …" description.
    Each rendering comes with the reader that takes it apart again. */
module Render {
  import opened Results
  import opened Text
  import opened When

  /** The resource record returned for one task. */
  datatype Resource = Resource(id: string, uri: string, name: string, description: string)

  const UriPrefix: string := "notion://task/"

  /** Status glyphs: WHITE HEAVY CHECK MARK or WHITE LARGE SQUARE, then a space. */
  const DoneGlyph: string := "\U{2705} "
  const OpenGlyph: string := "\U{2B1C} "

  /** Urgency glyphs: LARGE RED CIRCLE or MEDIUM WHITE CIRCLE, then a space. */
  const TodayGlyph: string := "\U{1F534} "
  const LaterGlyph: string := "\U{26AA} "

  const DescriptionHead: string := "When: "
  const CompletedLabel: string := ", Completed: "

  function StatusGlyph(completed: bool): string {
    if completed then DoneGlyph else OpenGlyph
  }

  function UrgencyGlyph(when: string): string {
    if IsToday(when) then TodayGlyph else LaterGlyph
  }

  /** The two options get the two urgency glyphs. */
  lemma OptionGlyphs()
    ensures UrgencyGlyph(Today) == TodayGlyph
    ensures UrgencyGlyph(Later) == LaterGlyph
  {
    OptionsAreLowercase();
  }

  /** Python's `str()` of a boolean. */
  function BoolText(b: bool): string {
    if b then "True" else "False"
  }

  /** What a display name says about its task. */
  datatype NameParts = NameParts(completed: bool, today: bool, title: string)

  /** The reader of display names: both glyphs, then the title. */
  function ReadDisplayName(name: string): Option<NameParts> {
    if |name| >= 4
       && (name[..2] == DoneGlyph || name[..2] == OpenGlyph)
       && (name[2..4] == TodayGlyph || name[2..4] == LaterGlyph)
    then Some(NameParts(name[..2] == DoneGlyph, name[2..4] == TodayGlyph, name[4..]))
    else None
  }

  /** The display name of a task: status glyph, urgency glyph, raw title. */
  function DisplayName(completed: bool, when: string, title: string): string {
    StatusGlyph(completed) + UrgencyGlyph(when) + title
  }

  /** The reader recovers from a display name the completion flag, whether
      `when` means today, and the title untouched. */
  lemma DisplayNameReadsBack(completed: bool, when: string, title: string)
    ensures ReadDisplayName(DisplayName(completed, when, title)) == Some(NameParts(completed, IsToday(when), title))
  {
    var name := DisplayName(completed, when, title);
    assert name[..2] == StatusGlyph(completed);
    assert name[2..4] == UrgencyGlyph(when);
    assert name[4..] == title;
  }

  /** The reader of descriptions: the `when` text and the completion flag. */
  function ReadDescription(d: string): Option<(string, bool)> {
    var done := CompletedLabel + BoolText(true);
    var open := CompletedLabel + BoolText(false);
    var h := |DescriptionHead|;
    if |d| >= h + |done| && d[..h] == DescriptionHead && d[|d| - |done|..] == done
    then Some((d[h..|d| - |done|], true))
    else if |d| >= h + |open| && d[..h] == DescriptionHead && d[|d| - |open|..] == open
    then Some((d[h..|d| - |open|], false))
    else None
  }

  /** The description of a task: "When: <when>, Completed: <True|False>". */
  function Description(when: string, completed: bool): string {
    DescriptionHead + when + CompletedLabel + BoolText(completed)
  }

  /** The reader recovers from a description the `when` text verbatim,
      whatever characters it holds, and the completion flag. */
  lemma DescriptionReadsBack(when: string, completed: bool)
    ensures ReadDescription(Description(when, completed)) == Some((when, completed))
  {
    var tail := CompletedLabel + BoolText(completed);
    var d := Description(when, completed);
    assert d == DescriptionHead + when + tail;
    assert d[..|DescriptionHead|] == DescriptionHead;
    assert d[|d| - |tail|..] == tail;
    assert d[|DescriptionHead|..|d| - |tail|] == when;
    if !completed {
      assert d[|d| - 17] == ' ';
    }
  }

  /** The reader of task URIs. */
  function ReadTaskUri(uri: string): Option<string> {
    if |uri| >= |UriPrefix| && uri[..|UriPrefix|] == UriPrefix
    then Some(uri[|UriPrefix|..])
    else None
  }

  /** The URI of the task with the given id. */
  function TaskUri(id: string): string {
    UriPrefix + id
  }

  /** The reader recovers the id from a task URI. */
  lemma TaskUriReadsBack(id: string)
    ensures ReadTaskUri(TaskUri(id)) == Some(id)
  {
    assert TaskUri(id)[..|UriPrefix|] == UriPrefix;
  }

  /** The resource record of a task, as every tool builds it. */
  function TaskResource(id: string, title: string, when: string, completed: bool): Resource {
    Resource(id, TaskUri(id), DisplayName(completed, when, title), Description(when, completed))
  }

  /** A task resource keeps the id, and its URI, name and description read
      back as the id, the flag, the urgency, the title and `when`. */
  lemma TaskResourceReadsBack(id: string, title: string, when: string, completed: bool)
    ensures var r := TaskResource(id, title, when, completed);
            && r.id == id
            && ReadTaskUri(r.uri) == Some(id)
            && ReadDisplayName(r.name) == Some(NameParts(completed, IsToday(when), title))
            && ReadDescription(r.description) == Some((when, completed))
  {
    TaskUriReadsBack(id);
    DisplayNameReadsBack(completed, when, title);
    DescriptionReadsBack(when, completed);
  }

  /** The glyph pair for each of the four combinations of completion and urgency. */
  lemma GlyphTable(when: string, title: string)
    ensures DisplayName(true, when, title) == (if IsToday(when) then "\U{2705} \U{1F534} " else "\U{2705} \U{26AA} ") + title
    ensures DisplayName(false, when, title) == (if IsToday(when) then "\U{2B1C} \U{1F534} " else "\U{2B1C} \U{26AA} ") + title
  {
  }

  /** Two tasks get the same display name only when they agree on completion,
      on urgency and on the title. */
  lemma DisplayNameInjective(c1: bool, w1: string, t1: string, c2: bool, w2: string, t2: string)
    requires DisplayName(c1, w1, t1) == DisplayName(c2, w2, t2)
    ensures c1 == c2 && IsToday(w1) == IsToday(w2) && t1 == t2
  {
    DisplayNameReadsBack(c1, w1, t1);
    DisplayNameReadsBack(c2, w2, t2);
  }

  /** Two descriptions are equal only when `when` and the flag are. */
  lemma DescriptionInjective(w1: string, c1: bool, w2: string, c2: bool)
    requires Description(w1, c1) == Description(w2, c2)
    ensures w1 == w2 && c1 == c2
  {
    DescriptionReadsBack(w1, c1);
    DescriptionReadsBack(w2, c2);
  }

  /** The description of an open and of a done task, spelled out. */
  lemma DescriptionTable(when: string)
    ensures Description(when, true) == "When: " + when + ", Completed: True"
    ensures Description(when, false) == "When: " + when + ", Completed: False"
  {
    assert CompletedLabel + BoolText(true) == ", Completed: True";
    assert CompletedLabel + BoolText(false) == ", Completed: False";
  }

  /** The resource of an open or a done task due today, spelled out. */
  lemma ResourceDueToday(id: string, title: string, completed: bool)
    ensures TaskResource(id, title, Today, completed)
         == Resource(id, "notion://task/" + id,
                     (if completed then "\U{2705} \U{1F534} " else "\U{2B1C} \U{1F534} ") + title,
                     "When: " + "today" + (if completed then ", Completed: True" else ", Completed: False"))
  {
    OptionGlyphs();
    GlyphTable(Today, title);
    DescriptionTable(Today);
  }

  /** The resource of an open or a done task for later, spelled out. */
  lemma ResourceForLater(id: string, title: string, completed: bool)
    ensures TaskResource(id, title, Later, completed)
         == Resource(id, "notion://task/" + id,
                     (if completed then "\U{2705} \U{26AA} " else "\U{2B1C} \U{26AA} ") + title,
                     "When: " + "later" + (if completed then ", Completed: True" else ", Completed: False"))
  {
    OptionGlyphs();
    GlyphTable(Later, title);
    DescriptionTable(Later);
  }
}

=== FILE: results.dfy ===
/** Failure-compatible wrappers shared by the model. A `Result` carries either a
    value or the text of the Python exception that would have been raised. */
module Results {

  datatype Option<+T> = None | Some(value: T) {

    function GetOr(default: T): T {
      match this
      case Some(v) => v
      case None => default
    }
  }

  datatype Result<+T> = Ok(value: T) | Err(message: string) {

    predicate IsFailure() {
      Err?
    }

    function PropagateFailure<U>(): Result<U>
      requires Err?
    {
      Err(message)
    }

    function Extract(): T
      requires Ok?
    {
      value
    }
  }
}

=== FILE: text.dfy ===
/** Character-level string helpers. */
module Text {

  /** ASCII lower-casing of one character; every other character is left alone. */
  function LowerChar(c: char): char {
    if 'A' <= c <= 'Z' then (c as int - 'A' as int + 'a' as int) as char else c
  }

  predicate IsUpper(c: char) {
    'A' <= c <= 'Z'
  }

  /** The model of Python's `str.lower()`, restricted to ASCII letters. */
  function Lower(s: string): (r: string)
    ensures |r| == |s|
    ensures forall i :: 0 <= i < |s| ==> r[i] == LowerChar(s[i])
    ensures forall i :: 0 <= i < |r| ==> !IsUpper(r[i])
  {
    if s == [] then [] else [LowerChar(s[0])] + Lower(s[1..])
  }

  /** Lower-casing twice is lower-casing once. */
  lemma LowerIdempotent(s: string)
    ensures Lower(Lower(s)) == Lower(s)
  {
    assert forall i :: 0 <= i < |s| ==> LowerChar(Lower(s)[i]) == Lower(s)[i];
  }

  /** A string with no upper-case letter is its own lower-case form. */
  lemma LowerOfLowercase(s: string)
    requires forall i :: 0 <= i < |s| ==> !IsUpper(s[i])
    ensures Lower(s) == s
  {
  }
}

=== FILE: tool_examples.dfy ===
/** The adapter's own test scenarios, restated over the model with the exact
    strings the tools produce. */
module ToolExamples {
  import opened Results
  import Text
  import opened Json
  import opened When
  import opened Render
  import opened Pages
  import opened Tools
  import opened ToolProperties

  /** A reply listing two stored tasks, one due today and open, one for
      later and done, is rendered in order with their ids, titles and
      options. */
  lemma ListTwoTasks(databaseId: string, body: Json, id1: string, title1: string, id2: string, title2: string)
    requires Subscript(body, "results")
             == Ok(Arr([Record(id1, [title1], Some("today"), false), Record(id2, [title2], Some("later"), true)]))
    ensures var out := ListTasks(databaseId, Replied(body)).output;
            && |out| == 2
            && out[0] == ResourceItem(Resource(id1, "notion://task/" + id1, "\U{2B1C} \U{1F534} " + title1,
                                               "When: " + "today" + ", Completed: False"))
            && out[1] == ResourceItem(Resource(id2, "notion://task/" + id2, "\U{2705} \U{26AA} " + title2,
                                               "When: " + "later" + ", Completed: True"))
  {
    ResultsListed(body, [Record(id1, [title1], Some(Today), false), Record(id2, [title2], Some(Later), true)]);
    ListFirstOfTwo(databaseId, body, id1, title1, id2, title2);
    ListSecondOfTwo(databaseId, body, id1, title1, id2, title2);
    ResourceDueToday(id1, title1, false);
    ResourceForLater(id2, title2, true);
  }

  lemma ListFirstOfTwo(databaseId: string, body: Json, id1: string, title1: string, id2: string, title2: string)
    requires QueryResults(body)
             == Ok([Record(id1, [title1], Some(Today), false), Record(id2, [title2], Some(Later), true)])
    ensures var out := ListTasks(databaseId, Replied(body)).output;
            |out| == 2 && out[0] == ResourceItem(TaskResource(id1, title1, Today, false))
  {
    var pages := [Record(id1, [title1], Some(Today), false), Record(id2, [title2], Some(Later), true)];
    ParseRecord(id1, [title1], Some(Today), false);
    ParseRecord(id2, [title2], Some(Later), true);
    ListTasksOneToOne(databaseId, body, pages);
  }

  lemma ListSecondOfTwo(databaseId: string, body: Json, id1: string, title1: string, id2: string, title2: string)
    requires QueryResults(body)
             == Ok([Record(id1, [title1], Some(Today), false), Record(id2, [title2], Some(Later), true)])
    ensures var out := ListTasks(databaseId, Replied(body)).output;
            |out| == 2 && out[1] == ResourceItem(TaskResource(id2, title2, Later, true))
  {
    var pages := [Record(id1, [title1], Some(Today), false), Record(id2, [title2], Some(Later), true)];
    ParseRecord(id1, [title1], Some(Today), false);
    ParseRecord(id2, [title2], Some(Later), true);
    ListTasksOneToOne(databaseId, body, pages);
  }

  /** Adding a task with the default option shows it as open and for later. */
  lemma AddWithDefaultOption(databaseId: string, id: string, taskName: string)
    ensures AddTask(databaseId, taskName, "later", Replied(Obj([("id", Str(id))]))).output
            == [ResourceItem(Resource(id, "notion://task/" + id, "\U{2B1C} \U{26AA} " + taskName,
                                      "When: " + "later" + ", Completed: False"))]
  {
    AddTaskAnswer(databaseId, taskName, Later, id);
    OptionsNormalizeToThemselves();
    ResourceForLater(id, taskName, false);
  }

  /** Adding a task for today, with the store echoing the new page back,
      shows it as open and due today. */
  lemma AddForToday(databaseId: string, id: string, taskName: string)
    ensures AddTask(databaseId, taskName, "today", Replied(Record(id, [taskName], Some("today"), false))).output
            == [ResourceItem(Resource(id, "notion://task/" + id, "\U{2B1C} \U{1F534} " + taskName,
                                      "When: " + "today" + ", Completed: False"))]
  {
    ParseRecord(id, [taskName], Some(Today), false);
    OptionsNormalizeToThemselves();
    ResourceDueToday(id, taskName, false);
  }

  /** Moving an open task to later shows it with the later glyph and option. */
  lemma SetLaterTime(pageId: string, taskName: string)
    ensures SetTaskTime(pageId, "later", Replied(Record(pageId, [taskName], Some("later"), false))).output
            == [ResourceItem(Resource(pageId, "notion://task/" + pageId, "\U{2B1C} \U{26AA} " + taskName,
                                      "When: " + "later" + ", Completed: False"))]
  {
    SetTaskTimeShowsReplyCheckbox(pageId, Later, pageId, [taskName], Some(Later), false);
    OptionsNormalizeToThemselves();
    ResourceForLater(pageId, taskName, false);
  }

  /** An unrecognised option is stored and shown as "later". */
  lemma AddWithUnknownOption(databaseId: string, id: string, taskName: string)
    ensures AddTask(databaseId, taskName, "tomorrow", Replied(Obj([("id", Str(id))]))).output
            == [ResourceItem(Resource(id, "notion://task/" + id, "\U{2B1C} \U{26AA} " + taskName,
                                      "When: " + "later" + ", Completed: False"))]
  {
    AddTaskAnswer(databaseId, taskName, "tomorrow", id);
    assert !Recognised("tomorrow") by {
      assert |Text.Lower("tomorrow")| == 8;
    }
    ResourceForLater(id, taskName, false);
  }

  /** A task due today, completed and then reopened, is shown first
      completed and then open, due today both times, whatever checkbox the
      store reports back. */
  lemma CompleteThenUncompleteToday(pageId: string, taskName: string, checkbox: bool)
    ensures CompleteTask(pageId, Replied(Record(pageId, [taskName], Some(Today), checkbox))).output
            == [ResourceItem(Resource(pageId, "notion://task/" + pageId, "\U{2705} \U{1F534} " + taskName,
                                      "When: " + "today" + ", Completed: True"))]
    ensures UncompleteTask(pageId, Replied(Record(pageId, [taskName], Some(Today), checkbox))).output
            == [ResourceItem(Resource(pageId, "notion://task/" + pageId, "\U{2B1C} \U{1F534} " + taskName,
                                      "When: " + "today" + ", Completed: False"))]
  {
    CompletionIgnoresReplyCheckbox(pageId, pageId, [taskName], Some(Today), checkbox);
    ResourceDueToday(pageId, taskName, true);
    ResourceDueToday(pageId, taskName, false);
  }

  /** A record with an empty title list and a null select is listed as an
      open "Untitled" task for later. */
  lemma ListUntitledTask(databaseId: string, body: Json, id: string)
    requires Subscript(body, "results") == Ok(Arr([Record(id, [], None, false)]))
    ensures ListTasks(databaseId, Replied(body)).output
            == [ResourceItem(Resource(id, "notion://task/" + id, "\U{2B1C} \U{26AA} " + "Untitled",
                                      "When: " + "later" + ", Completed: False"))]
  {
    ListOneRecord(databaseId, body, id, [], None, false);
    ResourceForLater(id, Untitled, false);
  }
}

=== FILE: tool_properties.dfy ===
/** Properties relating the tools to one another and to the page records the
    store hands back. */
module ToolProperties {
  import opened Results
  import opened Text
  import opened Json
  import opened When
  import opened Render
  import opened Pages
  import opened Payloads
  import opened Tools

  /** list_tasks maps the returned records one to one and in order: each
      resource copies its record's id and points at `notion://task/<id>`. */
  lemma ListTasksOneToOne(databaseId: string, body: Json, pages: seq<Json>)
    requires QueryResults(body) == Ok(pages)
    requires forall i :: 0 <= i < |pages| ==> ParsePage(pages[i]).Ok?
    ensures var out := ListTasks(databaseId, Replied(body)).output;
            && |out| == |pages|
            && forall i :: 0 <= i < |pages| ==>
                 && out[i] == ResourceItem(PageResource(ParsePage(pages[i]).value))
                 && out[i].resource.id == ParsePage(pages[i]).value.id
                 && out[i].resource.uri == UriPrefix + ParsePage(pages[i]).value.id
  {
  }

  /** A `results` list in the reply is the sequence of records list_tasks
      walks. */
  lemma ResultsListed(body: Json, pages: seq<Json>)
    requires Subscript(body, "results") == Ok(Arr(pages))
    ensures QueryResults(body) == Ok(pages)
  {
    SubscriptFinds(body, "results");
  }

  /** A `results` that is present but null is not an empty task list: the
      loop over it raises, and list_tasks answers with that one error. */
  lemma ListTasksNullResults(databaseId: string, body: Json)
    requires Subscript(body, "results") == Ok(Null)
    ensures ListTasks(databaseId, Replied(body)).output
            == [TextItem(ListError + NotIterable("NoneType"))]
  {
    SubscriptFinds(body, "results");
    assert GetOr(body, "results", Arr([])) == Ok(Null);
  }

  /** A reply without `results`, or with an empty list of them, is an empty
      task list and not an error. */
  lemma ListTasksNoResults(databaseId: string, body: Json)
    requires body.Obj?
    requires "results" !in Keys(body.members) || Subscript(body, "results") == Ok(Arr([]))
    ensures ListTasks(databaseId, Replied(body)).output == []
  {
    assert QueryResults(body) == Ok([]);
  }

  /** One unreadable record makes list_tasks answer with the error of the
      first unreadable record and no resources at all. */
  lemma ListTasksBadRecord(databaseId: string, body: Json, pages: seq<Json>, k: nat)
    requires QueryResults(body) == Ok(pages)
    requires k < |pages| && ParsePage(pages[k]).Err?
    requires forall j :: 0 <= j < k ==> ParsePage(pages[j]).Ok?
    ensures ListTasks(databaseId, Replied(body)).output == [TextItem(ListError + ParsePage(pages[k]).message)]
  {
    var r := RenderPages(pages);
    assert r.Err?;
    var k' :| 0 <= k' < |pages| && ParsePage(pages[k']) == Err(r.message)
              && forall j :: 0 <= j < k' ==> ParsePage(pages[j]).Ok?;
    assert k' == k;
  }

  /** A failed call makes every tool answer with exactly one error text:
      the tool's own prefix followed by the failure's message. */
  lemma CallFailureIsOneErrorText(databaseId: string, pageId: string, taskName: string, when: string, message: string)
    ensures ListTasks(databaseId, Failed(message)).output == [TextItem("Error listing tasks: " + message)]
    ensures AddTask(databaseId, taskName, when, Failed(message)).output == [TextItem("Error adding task: " + message)]
    ensures CompleteTask(pageId, Failed(message)).output == [TextItem("Error completing task: " + message)]
    ensures UncompleteTask(pageId, Failed(message)).output == [TextItem("Error uncompleting task: " + message)]
    ensures SetTaskTime(pageId, when, Failed(message)).output == [TextItem("Error setting task time: " + message)]
  {
  }

  /** add_task sends the title, the lower-cased option and an unticked
      checkbox under a parent naming the configured database. */
  lemma AddTaskPayload(databaseId: string, taskName: string, when: string, reply: Reply)
    ensures var body := AddTask(databaseId, taskName, when, reply).request.body;
            && body.Obj? && Keys(body.members) == {"parent", "properties"}
            && Subscript(body, "parent").Ok?
            && Subscript(Subscript(body, "parent").value, "database_id") == Ok(Str(databaseId))
            && Subscript(body, "properties").Ok?
            && var props := Subscript(body, "properties").value;
               && props.Obj? && Keys(props.members) == {"Task", "When", "Checkbox"}
               && TitleOf(props) == Ok(taskName)
               && WhenOf(props) == Ok(Str(SelectName(when)))
               && (SelectName(when) == "today" || SelectName(when) == "later")
               && CompletedOf(props) == Ok(false)
  {
  }

  /** set_task_time writes only the select, as "today" or "later", and an
      unrecognised `when` is written and shown as "later". */
  lemma SetTaskTimePayload(pageId: string, when: string, reply: Reply)
    ensures var body := SetTaskTime(pageId, when, reply).request.body;
            && body.Obj? && Keys(body.members) == {"properties"}
            && Subscript(body, "properties").Ok?
            && var props := Subscript(body, "properties").value;
               && props.Obj? && Keys(props.members) == {"When"}
               && WhenOf(props) == Ok(Str(SelectName(when)))
    ensures !Recognised(when) ==>
              var out := SetTaskTime(pageId, when, reply).output;
              forall i :: 0 <= i < |out| && out[i].ResourceItem? ==>
                ReadDescription(out[i].resource.description).Some?
                && ReadDescription(out[i].resource.description).value.0 == "later"
  {
  }

  /** complete_task renders the record as completed whatever its checkbox
      says, and uncomplete_task renders it as open. */
  lemma CompletionIgnoresReplyCheckbox(pageId: string, id: string, fragments: seq<string>, select: Option<string>, checkbox: bool)
    ensures var title := if fragments == [] then Untitled else fragments[0];
            && CompleteTask(pageId, Replied(Record(id, fragments, select, checkbox))).output
               == [ResourceItem(TaskResource(id, title, select.GetOr(Later), true))]
            && UncompleteTask(pageId, Replied(Record(id, fragments, select, checkbox))).output
               == [ResourceItem(TaskResource(id, title, select.GetOr(Later), false))]
  {
    ParseRecord(id, fragments, select, checkbox);
  }

  /** set_task_time is the one tool that shows the checkbox of the reply. */
  lemma SetTaskTimeShowsReplyCheckbox(pageId: string, when: string, id: string, fragments: seq<string>, select: Option<string>, checkbox: bool)
    ensures SetTaskTime(pageId, when, Replied(Record(id, fragments, select, checkbox))).output
            == [ResourceItem(TaskResource(id, if fragments == [] then Untitled else fragments[0], Normalize(when), checkbox))]
  {
    ParseRecord(id, fragments, select, checkbox);
  }

  /** A task added and then listed shows the same glyphs and title. The
      description differs only in letter case: add_task shows the caller's
      spelling of the option, list_tasks the lower-case one it stored. */
  lemma AddedTaskListsAlike(databaseId: string, taskName: string, when: string, id: string)
    ensures var stored := Obj([("id", Str(id)), ("properties", NewTaskProperties(taskName, when))]);
            var added := AddTask(databaseId, taskName, when, Replied(Obj([("id", Str(id))]))).output;
            var listed := ListTasks(databaseId, Replied(Obj([("results", Arr([stored]))]))).output;
            && added == [ResourceItem(TaskResource(id, taskName, Normalize(when), false))]
            && listed == [ResourceItem(TaskResource(id, taskName, SelectName(when), false))]
            && added[0].resource.name == listed[0].resource.name
            && ReadDescription(added[0].resource.description) == Some((Normalize(when), false))
            && ReadDescription(listed[0].resource.description) == Some((SelectName(when), false))
            && Lower(Normalize(when)) == SelectName(when)
  {
    AddTaskAnswer(databaseId, taskName, when, id);
    ListStoredTask(databaseId, taskName, when, id);
    DescriptionReadsBack(Normalize(when), false);
    DescriptionReadsBack(SelectName(when), false);
    assert UrgencyGlyph(Normalize(when)) == UrgencyGlyph(SelectName(when));
  }

  lemma AddTaskAnswer(databaseId: string, taskName: string, when: string, id: string)
    ensures AddTask(databaseId, taskName, when, Replied(Obj([("id", Str(id))]))).output
            == [ResourceItem(TaskResource(id, taskName, Normalize(when), false))]
  {
    var reply := Obj([("id", Str(id))]);
    SubscriptAt(reply.members, 0, "id");
  }

  lemma ListStoredTask(databaseId: string, taskName: string, when: string, id: string)
    ensures var stored := Obj([("id", Str(id)), ("properties", NewTaskProperties(taskName, when))]);
            ListTasks(databaseId, Replied(Obj([("results", Arr([stored]))]))).output
            == [ResourceItem(TaskResource(id, taskName, SelectName(when), false))]
  {
    var stored := Obj([("id", Str(id)), ("properties", NewTaskProperties(taskName, when))]);
    assert stored == Record(id, [taskName], Some(SelectName(when)), false);
    var body := Obj([("results", Arr([stored]))]);
    SubscriptAt(body.members, 0, "results");
    ListOneRecord(databaseId, body, id, [taskName], Some(SelectName(when)), false);
  }

  /** A reply holding one canonical record lists that one task. */
  lemma ListOneRecord(databaseId: string, body: Json, id: string, fragments: seq<string>, select: Option<string>, completed: bool)
    requires Subscript(body, "results") == Ok(Arr([Record(id, fragments, select, completed)]))
    ensures ListTasks(databaseId, Replied(body)).output
            == [ResourceItem(TaskResource(id, if fragments == [] then Untitled else fragments[0], select.GetOr(Later), completed))]
  {
    ParseRecord(id, fragments, select, completed);
    ResultsListed(body, [Record(id, fragments, select, completed)]);
    ListTasksOneToOne(databaseId, body, [Record(id, fragments, select, completed)]);
  }
}

=== FILE: tools.dfy ===
/** The five tools of the task adapter: list_tasks, add_task, complete_task,
    uncomplete_task and set_task_time. Each tool builds one request for the
    task store; the store's reply is an input, and the tool turns it into a
    list of task resources, or into a single error text when the call or the
    reading of its reply raised. */
module Tools {
  import opened Results
  import opened Json
  import opened When
  import opened Render
  import opened Pages
  import opened Payloads

  /** One item of a tool's result list. */
  datatype Content = ResourceItem(resource: Resource) | TextItem(text: string)

  /** What the store call came back with: the decoded body of a successful
      response, or the text of the exception raised by the transport, by a
      non-success status or by decoding the body. */
  datatype Reply = Replied(body: Json) | Failed(message: string)

  /** The request a tool sends and the list it returns. */
  datatype ToolCall = ToolCall(request: Request, output: seq<Content>)

  const ListError: string := "Error listing tasks: "
  const AddError: string := "Error adding task: "
  const CompleteError: string := "Error completing task: "
  const UncompleteError: string := "Error uncompleting task: "
  const SetTimeError: string := "Error setting task time: "

  /** The shape of every tool's answer: resources only, or exactly one error
      text that starts with the tool's prefix. */
  predicate WellFormedAnswer(out: seq<Content>, prefix: string) {
    || (forall i :: 0 <= i < |out| ==> out[i].ResourceItem?)
    || (|out| == 1 && out[0].TextItem? && |prefix| <= |out[0].text| && out[0].text[..|prefix|] == prefix)
  }

  /** The resource's name and description both show the given completion
      flag. */
  predicate ShowsCompletion(r: Resource, completed: bool) {
    && ReadDisplayName(r.name).Some? && ReadDisplayName(r.name).value.completed == completed
    && ReadDescription(r.description).Some? && ReadDescription(r.description).value.1 == completed
  }

  /** The resource's description shows the normalised option, and its name
      the urgency glyph of that option. */
  predicate ShowsWhen(r: Resource, when: string) {
    && ReadDescription(r.description).Some? && ReadDescription(r.description).value.0 == Normalize(when)
    && ReadDisplayName(r.name).Some? && ReadDisplayName(r.name).value.today == IsToday(when)
  }

  /** The answer a tool returns once its work produced resources or raised. */
  function Answer(prefix: string, outcome: Result<seq<Resource>>): (out: seq<Content>)
    ensures WellFormedAnswer(out, prefix)
    ensures outcome.Err? ==> out == [TextItem(prefix + outcome.message)]
    ensures outcome.Ok? ==> |out| == |outcome.value|
    ensures outcome.Ok? ==> forall i :: 0 <= i < |out| ==> out[i] == ResourceItem(outcome.value[i])
  {
    match outcome
    case Ok(rs) => seq(|rs|, i requires 0 <= i < |rs| => ResourceItem(rs[i]))
    case Err(m) =>
      assert (prefix + m)[..|prefix|] == prefix;
      [TextItem(prefix + m)]
  }

  function ReplyBody(reply: Reply): Result<Json> {
    match reply
    case Replied(body) => Ok(body)
    case Failed(message) => Err(message)
  }

  /** The resource list_tasks builds from one page record. */
  function PageResource(page: Page): Resource {
    TaskResource(page.id, page.title, page.when, page.completed)
  }

  /** The records list_tasks walks: `body.get("results", [])`, iterated. */
  function QueryResults(body: Json): Result<seq<Json>> {
    var results :- GetOr(body, "results", Arr([]));
    Iterate(results)
  }

  /** The resources of the page records, one per record and in order; the
      first record that cannot be read makes the whole list fail with its
      error. */
  function RenderPages(pages: seq<Json>): (r: Result<seq<Resource>>)
    ensures r.Ok? <==> forall i :: 0 <= i < |pages| ==> ParsePage(pages[i]).Ok?
    ensures r.Ok? ==> |r.value| == |pages|
    ensures r.Ok? ==> forall i :: 0 <= i < |pages| ==> r.value[i] == PageResource(ParsePage(pages[i]).value)
    ensures r.Err? ==> exists k :: 0 <= k < |pages| && ParsePage(pages[k]) == Err(r.message)
                                   && forall j :: 0 <= j < k ==> ParsePage(pages[j]).Ok?
  {
    if pages == [] then Ok([])
    else
      var page :- ParsePage(pages[0]);
      var rest :- RenderPages(pages[1..]);
      assert forall i :: 1 <= i < |pages| ==> pages[1..][i - 1] == pages[i];
      Ok([PageResource(page)] + rest)
  }

  /** list_tasks: query the database without a filter and render every
      returned record. */
  function ListTasks(databaseId: string, reply: Reply): (call: ToolCall)
    ensures call.request.verb == Post
    ensures call.request.url == ApiUrl + "/databases/" + databaseId + "/query"
    ensures call.request.body == Obj([])
    ensures WellFormedAnswer(call.output, ListError)
    ensures reply.Failed? ==> call.output == [TextItem(ListError + reply.message)]
    ensures reply.Replied? && QueryResults(reply.body).Err? ==>
              call.output == [TextItem(ListError + QueryResults(reply.body).message)]
  {
    var outcome :=
      var body :- ReplyBody(reply);
      var pages :- QueryResults(body);
      RenderPages(pages);
    ToolCall(QueryRequest(databaseId, Null), Answer(ListError, outcome))
  }

  /** add_task: create a page holding the title, the normalised option and
      an unticked checkbox; the resource is built from the arguments, and
      only its id comes from the reply. */
  function AddTask(databaseId: string, taskName: string, when: string, reply: Reply): (call: ToolCall)
    ensures call.request.verb == Post && call.request.url == ApiUrl + "/pages"
    ensures Subscript(call.request.body, "properties") == Ok(NewTaskProperties(taskName, when))
    ensures WellFormedAnswer(call.output, AddError)
    ensures reply.Failed? ==> call.output == [TextItem(AddError + reply.message)]
    ensures reply.Replied? && ReadId(reply.body).Ok? ==>
              call.output == [ResourceItem(TaskResource(ReadId(reply.body).value, taskName, Normalize(when), false))]
    ensures reply.Replied? && ReadId(reply.body).Err? ==>
              call.output == [TextItem(AddError + ReadId(reply.body).message)]
  {
    var outcome :=
      var body :- ReplyBody(reply);
      var id :- ReadId(body);
      Ok([TaskResource(id, taskName, Normalize(when), false)]);
    ToolCall(CreateRequest(databaseId, NewTaskProperties(taskName, when)), Answer(AddError, outcome))
  }

  /** What complete_task and uncomplete_task make of the store's reply: the
      title and `when` it holds, with the completion flag that was written. */
  function CompletionOutcome(completed: bool, reply: Reply): (r: Result<seq<Resource>>)
    ensures r.Ok? ==> |r.value| == 1 && ShowsCompletion(r.value[0], completed)
  {
    var body :- ReplyBody(reply);
    var title :- ReadTitle(body);
    var whenValue :- ReadWhen(body);
    var id :- ReadId(body);
    var when :- StrForLower(whenValue);
    TaskResourceReadsBack(id, title, when, completed);
    Ok([TaskResource(id, title, when, completed)])
  }

  /** complete_task and uncomplete_task: write the checkbox, then render the
      title and `when` from the reply with the completion flag that was
      written, not the one the reply holds. */
  function SetCompletion(pageId: string, completed: bool, prefix: string, reply: Reply): (call: ToolCall)
    ensures call.request.verb == Patch && call.request.url == ApiUrl + "/pages/" + pageId
    ensures Subscript(call.request.body, "properties") == Ok(CheckboxProperties(completed))
    ensures WellFormedAnswer(call.output, prefix)
    ensures reply.Failed? ==> call.output == [TextItem(prefix + reply.message)]
    ensures reply.Replied? && ReadTitle(reply.body).Ok? && ReadWhen(reply.body).Ok?
            && ReadWhen(reply.body).value.Str? && ReadId(reply.body).Ok? ==>
              call.output == [ResourceItem(TaskResource(ReadId(reply.body).value, ReadTitle(reply.body).value,
                                                        ReadWhen(reply.body).value.s, completed))]
    ensures forall i :: 0 <= i < |call.output| && call.output[i].ResourceItem? ==>
              ShowsCompletion(call.output[i].resource, completed)
    ensures reply.Replied? && ReadTitle(reply.body).Err? ==>
              call.output == [TextItem(prefix + ReadTitle(reply.body).message)]
    ensures reply.Replied? && ReadTitle(reply.body).Ok? && ReadWhen(reply.body).Err? ==>
              call.output == [TextItem(prefix + ReadWhen(reply.body).message)]
    ensures reply.Replied? && ReadTitle(reply.body).Ok? && ReadWhen(reply.body).Ok? && ReadId(reply.body).Err? ==>
              call.output == [TextItem(prefix + ReadId(reply.body).message)]
    ensures reply.Replied? && ReadTitle(reply.body).Ok? && ReadWhen(reply.body).Ok? && ReadId(reply.body).Ok?
            && !ReadWhen(reply.body).value.Str? ==>
              call.output == [TextItem(prefix + StrForLower(ReadWhen(reply.body).value).message)]
  {
    ToolCall(UpdateRequest(pageId, CheckboxProperties(completed)), Answer(prefix, CompletionOutcome(completed, reply)))
  }

  /** complete_task: tick the checkbox; the resource always shows the task
      as completed. */
  function CompleteTask(pageId: string, reply: Reply): (call: ToolCall)
    ensures call.request.verb == Patch && call.request.url == ApiUrl + "/pages/" + pageId
    ensures Subscript(call.request.body, "properties").Ok?
    ensures var props := Subscript(call.request.body, "properties").value;
            props.Obj? && Keys(props.members) == {"Checkbox"} && CompletedOf(props) == Ok(true)
    ensures Subscript(call.request.body, "properties") == Ok(CheckboxProperties(true))
    ensures WellFormedAnswer(call.output, CompleteError)
    ensures forall i :: 0 <= i < |call.output| && call.output[i].ResourceItem? ==>
              ShowsCompletion(call.output[i].resource, true)
    ensures reply.Failed? ==> call.output == [TextItem(CompleteError + reply.message)]
    ensures reply.Replied? && ReadTitle(reply.body).Err? ==>
              call.output == [TextItem(CompleteError + ReadTitle(reply.body).message)]
    ensures reply.Replied? && ReadTitle(reply.body).Ok? && ReadWhen(reply.body).Err? ==>
              call.output == [TextItem(CompleteError + ReadWhen(reply.body).message)]
    ensures reply.Replied? && ReadTitle(reply.body).Ok? && ReadWhen(reply.body).Ok? && ReadId(reply.body).Err? ==>
              call.output == [TextItem(CompleteError + ReadId(reply.body).message)]
    ensures reply.Replied? && ReadTitle(reply.body).Ok? && ReadWhen(reply.body).Ok? && ReadId(reply.body).Ok?
            && !ReadWhen(reply.body).value.Str? ==>
              call.output == [TextItem(CompleteError + StrForLower(ReadWhen(reply.body).value).message)]
  {
    var call := SetCompletion(pageId, true, CompleteError, reply);
    assert Subscript(call.request.body, "properties") == Ok(CheckboxProperties(true));
    call
  }

  /** uncomplete_task: clear the checkbox; the resource always shows the
      task as open. */
  function UncompleteTask(pageId: string, reply: Reply): (call: ToolCall)
    ensures call.request.verb == Patch && call.request.url == ApiUrl + "/pages/" + pageId
    ensures Subscript(call.request.body, "properties").Ok?
    ensures var props := Subscript(call.request.body, "properties").value;
            props.Obj? && Keys(props.members) == {"Checkbox"} && CompletedOf(props) == Ok(false)
    ensures Subscript(call.request.body, "properties") == Ok(CheckboxProperties(false))
    ensures WellFormedAnswer(call.output, UncompleteError)
    ensures forall i :: 0 <= i < |call.output| && call.output[i].ResourceItem? ==>
              ShowsCompletion(call.output[i].resource, false)
    ensures reply.Failed? ==> call.output == [TextItem(UncompleteError + reply.message)]
    ensures reply.Replied? && ReadTitle(reply.body).Err? ==>
              call.output == [TextItem(UncompleteError + ReadTitle(reply.body).message)]
    ensures reply.Replied? && ReadTitle(reply.body).Ok? && ReadWhen(reply.body).Err? ==>
              call.output == [TextItem(UncompleteError + ReadWhen(reply.body).message)]
    ensures reply.Replied? && ReadTitle(reply.body).Ok? && ReadWhen(reply.body).Ok? && ReadId(reply.body).Err? ==>
              call.output == [TextItem(UncompleteError + ReadId(reply.body).message)]
    ensures reply.Replied? && ReadTitle(reply.body).Ok? && ReadWhen(reply.body).Ok? && ReadId(reply.body).Ok?
            && !ReadWhen(reply.body).value.Str? ==>
              call.output == [TextItem(UncompleteError + StrForLower(ReadWhen(reply.body).value).message)]
  {
    var call := SetCompletion(pageId, false, UncompleteError, reply);
    assert Subscript(call.request.body, "properties") == Ok(CheckboxProperties(false));
    call
  }

  /** What set_task_time makes of the store's reply: the title and checkbox
      it holds, with the `when` kept after validation. */
  function TimeOutcome(when: string, reply: Reply): (r: Result<seq<Resource>>)
    ensures r.Ok? ==> |r.value| == 1 && ShowsWhen(r.value[0], when)
    ensures reply.Failed? ==> r == Err(reply.message)
    ensures reply.Replied? && ReadTitle(reply.body).Ok? && ReadCompleted(reply.body).Ok? && ReadId(reply.body).Ok? ==>
              r == Ok([TaskResource(ReadId(reply.body).value, ReadTitle(reply.body).value,
                                    Normalize(when), ReadCompleted(reply.body).value)])
    ensures reply.Replied? && ReadTitle(reply.body).Err? ==> r == Err(ReadTitle(reply.body).message)
    ensures reply.Replied? && ReadTitle(reply.body).Ok? && ReadCompleted(reply.body).Err? ==>
              r == Err(ReadCompleted(reply.body).message)
    ensures reply.Replied? && ReadTitle(reply.body).Ok? && ReadCompleted(reply.body).Ok? && ReadId(reply.body).Err? ==>
              r == Err(ReadId(reply.body).message)
  {
    var body :- ReplyBody(reply);
    var title :- ReadTitle(body);
    var completed :- ReadCompleted(body);
    var id :- ReadId(body);
    TaskResourceReadsBack(id, title, Normalize(when), completed);
    Ok([TaskResource(id, title, Normalize(when), completed)])
  }

  /** set_task_time: write the normalised option alone, then render the
      title and checkbox from the reply with the `when` kept after
      validation. */
  function SetTaskTime(pageId: string, when: string, reply: Reply): (call: ToolCall)
    ensures call.request.verb == Patch && call.request.url == ApiUrl + "/pages/" + pageId
    ensures Subscript(call.request.body, "properties") == Ok(WhenProperties(when))
    ensures WellFormedAnswer(call.output, SetTimeError)
    ensures reply.Failed? ==> call.output == [TextItem(SetTimeError + reply.message)]
    ensures reply.Replied? && ReadTitle(reply.body).Ok? && ReadCompleted(reply.body).Ok? && ReadId(reply.body).Ok? ==>
              call.output == [ResourceItem(TaskResource(ReadId(reply.body).value, ReadTitle(reply.body).value,
                                                        Normalize(when), ReadCompleted(reply.body).value))]
    ensures forall i :: 0 <= i < |call.output| && call.output[i].ResourceItem? ==>
              ShowsWhen(call.output[i].resource, when)
    ensures reply.Replied? && ReadTitle(reply.body).Err? ==>
              call.output == [TextItem(SetTimeError + ReadTitle(reply.body).message)]
    ensures reply.Replied? && ReadTitle(reply.body).Ok? && ReadCompleted(reply.body).Err? ==>
              call.output == [TextItem(SetTimeError + ReadCompleted(reply.body).message)]
    ensures reply.Replied? && ReadTitle(reply.body).Ok? && ReadCompleted(reply.body).Ok? && ReadId(reply.body).Err? ==>
              call.output == [TextItem(SetTimeError + ReadId(reply.body).message)]
  {
    var outcome := TimeOutcome(when, reply);
    var out := Answer(SetTimeError, outcome);
    assert forall i :: 0 <= i < |out| && out[i].ResourceItem? ==> ShowsWhen(out[i].resource, when) by {
      if outcome.Ok? {
        assert |out| == 1 && out[0] == ResourceItem(outcome.value[0]);
      }
    }
    ToolCall(UpdateRequest(pageId, WhenProperties(when)), out)
  }
}

=== FILE: when.dfy ===
/** The `when` argument of add_task and set_task_time: a select option of the
    task store, either "today" or "later". */
module When {
  import opened Text

  const Today: string := "today"
  const Later: string := "later"

  /** The caller named one of the two options, in any letter case. */
  predicate Recognised(when: string) {
    Lower(when) == Today || Lower(when) == Later
  }

  /** The urgency test every tool applies before choosing a glyph. */
  predicate IsToday(when: string) {
    Lower(when) == Today
  }

  /** The option names are already lower case. */
  lemma OptionsAreLowercase()
    ensures Lower(Today) == Today && Lower(Later) == Later
  {
    LowerOfLowercase(Today);
    LowerOfLowercase(Later);
  }

  /** The `when` the tools keep after validation and show in the description:
      the caller's own text when it names an option, "later" otherwise. */
  function Normalize(when: string): (r: string)
    ensures Recognised(r)
    ensures Recognised(when) ==> r == when
    ensures !Recognised(when) ==> r == Later
    ensures IsToday(r) <==> IsToday(when)
  {
    OptionsAreLowercase();
    if Recognised(when) then when else Later
  }

  /** The select option written to the store: always one of the two option
      names, and "today" exactly when the caller asked for today. */
  function SelectName(when: string): (r: string)
    ensures r == Today || r == Later
    ensures r == Today <==> IsToday(when)
    ensures Lower(r) == r
    ensures Recognised(when) ==> r == Lower(when)
  {
    OptionsAreLowercase();
    Lower(Normalize(when))
  }

  /** Each option is kept as it is and stored as it is. */
  lemma OptionsNormalizeToThemselves()
    ensures Normalize(Today) == Today && Normalize(Later) == Later
    ensures SelectName(Today) == Today && SelectName(Later) == Later
  {
    OptionsAreLowercase();
  }

  /** Normalising an already normalised value changes nothing. */
  lemma NormalizeIdempotent(when: string)
    ensures Normalize(Normalize(when)) == Normalize(when)
  {
  }
}
